=== FILE: README.md ===
# Datalake entities exporter: the warehouse client core in Dafny

The exporter copies the entities of a software catalog (Port) into a data
warehouse (BigQuery), one table per blueprint. This project models the core
of its warehouse client, `BigQueryClient` in `clients/bigquery.py`, in three
parts, and proves properties of each:

- **Schema mapper** (`schema_mapper.dfy`, module `SchemaMapper`). A blueprint
  becomes an ordered column list: four base columns (`identifier`, `title`,
  `created_at`, `updated_at`), then one column per property, relation,
  calculation, aggregation and mirror property, in that order. Field types map
  to warehouse types case-insensitively, and anything unknown becomes STRING.
- **Migration engine** (`migration_engine.dfy`, module `MigrationEngine`). The
  migration mode is parsed from the configuration (`weak`, `balanced`, `hard`).
  `create_or_update_table` then reconciles a live table with the derived
  schema. The warehouse is a value: `None` for an absent table, or its columns.
  A reconcile returns three things:
  - the write calls it issued (`CreateTable`, `UpdateSchema`);
  - the table afterwards;
  - whether an error escaped.

  Which warehouse calls fail is an explicit input (`Faults`). That includes
  the creation of an absent table.
- **Row reconciler** (`row_shaping.dfy`, `update_grouping.dfy`,
  `row_reconciler.dfy`; modules `RowShaping`, `UpdateGrouping`,
  `RowReconciler`).
  - Each entity is shaped into a row over the table's columns.
  - Rows of entities whose identifier is already stored go to the update half.
    All other rows go to the insert half.
  - Update rows are grouped by their exact set of non-identifier columns, and
    each becomes one parameterised `UPDATE … WHERE identifier = @identifier`.
  - Statements and rows are returned as data.

`common.dfy` (module `Common`) holds `Option`, ASCII lower-casing, a generic
`Map` over sequences and the `Subsequence` relation.

## Model

| member | source | states |
|---|---|---|
| MigrationEngine.ParseMode | clients/bigquery.py:42-44 | The mode string is accepted exactly when its lower-cased form is `weak`, `balanced` or `hard`, and the accepted mode is the one so named; anything else is the constructor's error |
| MigrationEngine.ParseModeName | clients/bigquery.py:42-44 | Every capitalisation of a mode name selects that mode |
| SchemaMapper.MapType | clients/bigquery.py:46-76 | A `string` with a non-empty format is TIMESTAMP iff the format is `date-time` (any case) and STRING otherwise; without one, the type is FLOAT64 iff `number`, BOOL iff `boolean`, TIMESTAMP iff `datetime`, and STRING for every other name, so the mapping is total |
| SchemaMapper.MapTypeIgnoresCase | clients/bigquery.py:57-76 | The mapped type is the same for a type and format as for their lower-cased forms |
| SchemaMapper.FieldFor | clients/bigquery.py:78-196 | Every section column keeps its entry's name and is NULLABLE. Relation and mirror columns are STRING; the other sections map the declared type, `string` when absent. Property columns have no description, and relation columns have one iff `many`. Calculation, aggregation and mirror descriptions are their fixed prefix followed by the entry's description or path, empty when absent |
| SchemaMapper.SectionFields | clients/bigquery.py:90-97 | A section yields exactly one column per entry, in the blueprint's key order |
| SchemaMapper.DeriveSchema | clients/bigquery.py:198-236 | The schema has 4 + (sum of the section sizes) columns. It starts with the four base columns, `identifier` is REQUIRED and every other column is NULLABLE |
| SchemaMapper.DeriveSchemaNames | clients/bigquery.py:207-236 | The column names are the base names, then the property, relation, calculation, aggregation and mirror keys, each section in key order |
| SchemaMapper.DeriveSchemaCoversEntries | clients/bigquery.py:215-234 | Every entry of every section has its column in the schema |
| SchemaMapper.RequiredListIgnored | clients/bigquery.py:78-97 | Changing the blueprint's `required` list does not change the derived schema |
| MigrationEngine.CompareSchemas | clients/bigquery.py:269-285 | `added` are the wanted names the table lacks and `kept` the shared ones: `kept` lies within both the existing and the wanted names, and `added` and `kept` together make up the wanted names. `removed` holds only existing, unwanted names and is non-empty only in `hard`, where `removed` and `kept` partition the existing names |
| MigrationEngine.AddFields | clients/bigquery.py:336-352 | The new schema keeps the live columns as a prefix, in order. It appends exactly the derived columns whose names are added, in schema order; its names are the live names plus the added derived names |
| MigrationEngine.AddFieldsCounts | clients/bigquery.py:346-349 | Each derived column whose name is added is appended exactly as often as the derived schema holds it, and no other column is appended |
| MigrationEngine.RemoveFields | clients/bigquery.py:360-369 | The new schema holds exactly the live columns whose name is not removed, in their order; its names are the live names minus the removed ones |
| MigrationEngine.RemoveFieldsCounts | clients/bigquery.py:362 | Each live column whose name is not removed is kept exactly as often as it occurs, and a column whose name is removed is not kept at all |
| MigrationEngine.RemoveFieldsIdempotent | clients/bigquery.py:360-369 | Removing the same names a second time leaves the schema as the first removal left it |
| MigrationEngine.CreateFallback | clients/bigquery.py:329-334 | The failure path issues a CreateTable with the derived schema. On an absent table this creates it, unless the creation itself fails; then the error escapes and no table exists. On a present table the creation always fails, the table is unchanged and the error escapes |
| MigrationEngine.ExistingFields | clients/bigquery.py:247-254 | The engine sees only names the table has. It sees all of them iff the field lookup succeeds, or the table has no columns; a failed lookup reads as no names |
| MigrationEngine.ApplyChanges | clients/bigquery.py:321-327 | Outside `hard` every update keeps the live columns as a prefix. An error escapes only when an add update that was issued (there was something to add) or a remove update that was issued (there was something to remove) fails, and the last call is then the fallback CreateTable |
| MigrationEngine.Reconcile | clients/bigquery.py:287-334 | An absent table gets exactly one call, a CreateTable with the derived schema. An error escapes iff that creation fails, and then the table is still absent. `weak` never alters a present table. Outside `hard` no update drops a live column. An error escapes only when some call is set to fail, and only from the fallback creation. A present table is never lost |
| MigrationEngine.NoCallsIffUpToDate | clients/bigquery.py:315-319 | With no failures, `balanced` and `hard` issue no call iff there is nothing to add and nothing to remove |
| MigrationEngine.BalancedNeverRemoves | clients/bigquery.py:281 | A `balanced` reconcile never loses a column name, whatever fails |
| MigrationEngine.ReconciledNames | clients/bigquery.py:308-327 | After a fault-free reconcile of a present table: `balanced` holds the union of the live and derived names, `hard` exactly the derived names, and `weak` the table as it was |
| MigrationEngine.FaultFreeCalls | clients/bigquery.py:315-327 | A fault-free `balanced` or `hard` reconcile of a present table issues exactly these calls: one update with the missing derived columns appended to the live ones, when names are missing; then, in `hard` only, one update of that schema without the names the derived schema lacks, when there are any. The table ends as the last update left it, and nothing is raised |
| MigrationEngine.FailedCallFallsBack | clients/bigquery.py:308-334 | On a present table, each failed call leads to the fallback creation, which fails, so the error escapes. A failed table lookup issues only the creation and leaves the table as it was. A failed add issues the add update and the creation and leaves the live columns. In `hard`, a failed remove after a successful or absent add issues the updates and the creation and leaves the schema the add step wrote |
| MigrationEngine.RaisedOnlyAfterIssuedCallFails | clients/bigquery.py:308-334 | On a present table an error escapes only when a call that was actually issued fails: the table lookup, the add update when there is something to add, or in `hard` the remove update when there is something to remove |
| MigrationEngine.ReconcileIdempotent | clients/bigquery.py:287-334 | After a fault-free reconcile, reconciling again with the same schema issues no call, changes nothing and raises nothing |
| MigrationEngine.FieldsLookupFailureResendsColumns | clients/bigquery.py:238-254 | When the field-name lookup fails on a present table, the engine sees no existing names. It sends one update with every derived column appended to the live ones, so shared names appear twice |
| RowShaping.EncodeRelation | clients/bigquery.py:425-428 | A string relation is stored as is, and a list relation as its JSON text |
| RowShaping.RelationColumns | clients/bigquery.py:422-428 | The relation columns are the known relations whose value is a string or list, each encoded |
| RowShaping.Overlay | clients/bigquery.py:418-443 | Writing entries into a row adds their keys; written keys take the new value and other keys keep theirs |
| RowShaping.ThroughRelations | clients/bigquery.py:410-428 | After the base columns, properties and relations, the row has the base keys plus the known property and storable relation names. `identifier` holds the entity identifier unless one of those overwrites it, and each known storable relation holds its encoding |
| RowShaping.ShapeRow | clients/bigquery.py:398-445 | Builds the row: base columns, then the known properties, relations, calculation, aggregation and mirror values, each section overwriting a same-named column before it. It has no ensures; the ShapeRow lemmas below state its keys and its values |
| RowShaping.ThroughRelationsBase | clients/bigquery.py:410-428 | A base column that no known property or stored relation names keeps its base value |
| RowShaping.ThroughRelationsProperty | clients/bigquery.py:417-428 | A known property that no stored relation of the same name overwrites holds the property's value |
| RowShaping.LaterSectionsKeys | clients/bigquery.py:430-443 | The calculation, aggregation and mirror loops add exactly their keys that are table columns |
| RowShaping.LaterSectionsKeep | clients/bigquery.py:430-443 | A column none of those loops writes keeps its value |
| RowShaping.LaterSectionsCalculation | clients/bigquery.py:430-443 | A known calculation value that no aggregation or mirror value of the same name overwrites holds its value |
| RowShaping.LaterSectionsAggregation | clients/bigquery.py:435-443 | A known aggregation value that no mirror value of the same name overwrites holds its value |
| RowShaping.ShapeRowKeys | clients/bigquery.py:398-445 | A row's keys are the four base keys plus every supplied field name that is a table column; a relation counts only when its value is a string or a list |
| RowShaping.ShapeRowBounds | clients/bigquery.py:410-445 | A row always has the base keys, and its other keys are table columns |
| RowShaping.ShapeRowMirror | clients/bigquery.py:440-443 | A known mirror value always reaches its column, because mirrors are written last |
| RowShaping.ShapeRowIdentifier | clients/bigquery.py:410-415 | The `identifier` column holds the entity identifier unless a known field of that name overwrites it |
| RowShaping.ShapeRowBase | clients/bigquery.py:410-415 | A base column that no known supplied field overwrites is present and holds the entity's title, `createdAt` or `updatedAt` |
| RowShaping.ShapeRowProperty | clients/bigquery.py:417-420 | A known property that no stored relation and no later section overwrites is copied as is |
| RowShaping.ShapeRowCalculation | clients/bigquery.py:430-433 | A known calculation value that no aggregation or mirror value overwrites is copied as is |
| RowShaping.ShapeRowAggregation | clients/bigquery.py:435-438 | A known aggregation value that no mirror value overwrites is copied as is |
| RowShaping.ShapeRowRelation | clients/bigquery.py:422-428 | A known relation no later section overwrites is stored: a string as is, a list as its JSON text |
| RowShaping.UnstorableRelationOmitted | clients/bigquery.py:425-428 | A relation that is neither a string nor a list, and that nothing else writes, has no column in the row |
| UpdateGrouping.Split | clients/bigquery.py:462 | Popping the identifier leaves every other column with its value |
| UpdateGrouping.AddToGroups | clients/bigquery.py:463-466 | Existing groups keep their field sets and order. Each keeps its items or gains the row at its end, and only a group with the row's own field set can gain it. A new group holding only the row is opened after them only when no group has its field set. That the row is added exactly once is AddToGroupsMembers |
| UpdateGrouping.AddToGroupsWellGrouped | clients/bigquery.py:459-466 | Adding a row keeps every group non-empty, every member keyed by its group's field set, and the field sets distinct |
| UpdateGrouping.AddToGroupsMembers | clients/bigquery.py:459-466 | Adding a row adds exactly that row to the grouped rows |
| UpdateGrouping.GroupItems | clients/bigquery.py:459-466 | The grouping of all rows is well grouped |
| UpdateGrouping.GroupItemsMembers | clients/bigquery.py:459-466 | Grouping neither drops nor duplicates a row: the members are the input, as a multiset |
| UpdateGrouping.SameGroupIffSameFields | clients/bigquery.py:463-466 | Two grouped rows share a group iff their field sets are equal |
| UpdateGrouping.ItemHasItsGroup | clients/bigquery.py:461-466 | Every input row sits in the group keyed by its own field set |
| UpdateGrouping.ReplaceZ | clients/bigquery.py:491 | After the replacement no `Z` is left, and a string without `Z` is unchanged. A single `Z` becomes `+00:00` and any other single character stays |
| UpdateGrouping.ReplaceZAppend | clients/bigquery.py:491 | Replacing in a concatenation is concatenating the replacements, so with the single-character case each `Z` becomes `+00:00` in place and every other character is kept |
| UpdateGrouping.DeclaredType | clients/bigquery.py:469 | A column's type comes from a table column of that name, where the last such column wins; an unknown name is STRING |
| UpdateGrouping.DeclaredTypeLastWins | clients/bigquery.py:469 | A known name takes the type of a column of that name after which no column has that name |
| UpdateGrouping.Bind | clients/bigquery.py:487-492 | In a TIMESTAMP column, a string is handed to the timestamp parser after the `Z` replacement. So is the JSON text of an encoded list relation, which is a Python string too. Every other value, and every value in another column type, is passed through unchanged |
| UpdateGrouping.RowStatement | clients/bigquery.py:479-493 | The UPDATE of a row sets exactly its non-identifier columns, one parameter each. Each parameter is named after its column, typed by the table (STRING by default) and bound from the row, and the statement filters on the row's identifier as a STRING |
| UpdateGrouping.StatementsOfAdd | clients/bigquery.py:503-510 | The statements of the groups after adding a row are the previous ones plus that row's statement |
| UpdateGrouping.StatementsOf | clients/bigquery.py:503-512 | The statements are issued group by group, in group order. It has no ensures; StatementsOfGroups states its facts |
| UpdateGrouping.StatementsOfGroups | clients/bigquery.py:503-512 | There is one statement per grouped row, and the first group's statements, in item order, come before those of any later group |
| UpdateGrouping.StatementsOfGroupItems | clients/bigquery.py:503-510 | The grouped statements are, as a multiset, one statement per row keyed by the row's own field set |
| UpdateGrouping.BulkUpdate | clients/bigquery.py:447-512 | No rows issue nothing. Otherwise the statements are, as a multiset, exactly one per row, each as RowStatement builds it independently of grouping |
| RowReconciler.Routed | clients/bigquery.py:534-540 | The entities routed to one half keep their input order |
| RowReconciler.RoutedMembers | clients/bigquery.py:537-540 | An entity goes to the update half iff its identifier is stored, and to the insert half iff it is not |
| RowReconciler.PartitionComplete | clients/bigquery.py:530-540 | The two halves together are the input, as a multiset, with no entity lost or doubled |
| RowReconciler.NothingKnownAllInserted | clients/bigquery.py:386-396 | With no stored identifiers (an empty table, or an identifier query that fails before returning any row) every entity is inserted, in order, and nothing is updated |
| RowReconciler.PartitionRows | clients/bigquery.py:530-540 | The loop's insert rows are the shaped rows of the new entities, and its update rows those of the stored ones, each in input order |
| RowReconciler.ShapedRowsHaveIdentifiers | clients/bigquery.py:410-415 | Every shaped row carries `identifier`, so the update half can pop it |
| RowReconciler.InsertEntities | clients/bigquery.py:514-546 | The insert rows are the shaped rows of the new entities, in order. The updates are the bulk update of the shaped rows of the stored entities, in order, and so hold one statement per such row. Rows and statements together account for every entity |

## Left out

- `port.py`, `port_client.py`, `settings.py` and `main.py` are not part of this model. This includes fetching blueprints and entities, the run loop and duplicate cleanup.
- The warehouse SDK is not modelled. Table lookups, schema updates, table creation, queries and row inserts are represented by the table-state value, the returned calls, the returned rows and statements, and the `Faults` flags.
- `_get_existing_identifiers` (clients/bigquery.py:377-396) is a query; the stored identifiers are an input set. A query that fails before returning any row gives the empty set, whose consequence `RowReconciler.NothingKnownAllInserted` states. A scan that fails while paging gives the identifiers read so far, a subset of the stored ones. That subset is just another value of the input, so `RowReconciler.InsertEntities` covers it: a stored entity whose identifier was not read is routed to the insert half.
- Concurrency (`asyncio.gather`, `to_thread`) is left out. The insert runs alongside the updates. The statements of one group run concurrently, and each group is awaited before the next starts. A failing statement is logged and swallowed. Insert errors are only logged. Neither changes the returned data.
- Logging is left out.
- `json.dumps` is represented by the `JsonText` tag, not by its characters.
- `datetime.fromisoformat` is represented by tags. `ParsedTimestamp` holds a string after the `Z` replacement, and `ParsedJsonText` holds the value whose JSON text is parsed. When the text fails to parse, the error is raised before the query is sent, outside the `try` that logs query errors. So that row's UPDATE is never sent, and `asyncio.gather` drops the error without logging it. That is not modelled. For a list relation, whose JSON text starts with `[`, the parse always fails.
- `str.lower()` is modelled on ASCII letters only.
- A blueprint field whose `type`, `format`, `description` or `path` key is present with a `null` value is not modelled: `Descriptor` holds each as present text or absent. Python would fail on a `null` type and print `None` into a description.
- An entity without an `identifier` or `title` key, which raises a KeyError in Python, is not modelled: `Entity` always has both.
- The warehouse's refusal to create an existing table is an assumption of the model. `create_table` is called with its default, which refuses existing tables. So the fallback creation after a fault on a present table fails, and the error escapes.
- UpdateGrouping.BulkUpdate: the statements are stated as a multiset, not in their issue order. The statements of one field-set group run concurrently, so their order within a group is not observable. The groups run one after another, in first-occurrence order of their field sets. That order is observable when one identifier is updated twice with different field sets, but BulkUpdate's contract does not state it. StatementsOfGroups states it for the statement list: the first group's statements come before those of later groups.
- The column order inside each `SET` clause is not modelled: it comes from iterating a frozenset, so the set of assigned columns stands for it.

## The failure fallback on a present table

The fallback in `create_or_update_table` carries the comment "Table doesn't
exist, create it" (clients/bigquery.py:331). It is reached after any failure
inside the `try`, including a failed add or remove update on a table that
does exist. The `create_table` call at clients/bigquery.py:333 does not allow
an existing table, so there the creation fails too and the error leaves
`create_or_update_table`. The model follows the code.
`MigrationEngine.CreateFallback` states that creating a present table fails
and changes nothing. `MigrationEngine.FailedCallFallsBack` states which table
each failure leaves:
- the table as it was after a failed lookup;
- the live columns after a failed add;
- the schema the add step wrote after a failed remove.

=== FILE: common.dfy ===
/**
  Small shared vocabulary of the exporter model: an optional value (Python's
  `None` or a missing dictionary key) and ASCII lower-casing (Python's
  `str.lower()` restricted to the characters the exporter compares against).
 */
module Common {

  /** A value that may be absent: a missing key or a `None`. */
  datatype Option<+T> = None | Some(value: T) {

    /** The value, or `default` when absent (Python's `d.get(k, default)`). */
    function GetOr(default: T): T {
      match this
      case Some(v) => v
      case None => default
    }
  }

  /** `a` is `b` with some elements left out, the rest kept in order. */
  ghost predicate Subsequence<T>(a: seq<T>, b: seq<T>) {
    |a| == 0 || (|b| > 0 && ((a[0] == b[0] && Subsequence(a[1..], b[1..])) || Subsequence(a, b[1..])))
  }

  /** `f` applied to every element of `s`, in order. */
  function Map<A, B>(f: A -> B, s: seq<A>): (r: seq<B>)
    ensures |r| == |s|
    ensures forall i :: 0 <= i < |s| ==> r[i] == f(s[i])
  {
    seq(|s|, i requires 0 <= i < |s| => f(s[i]))
  }

  lemma MapSnoc<A, B>(f: A -> B, s: seq<A>, x: A)
    ensures Map(f, s + [x]) == Map(f, s) + [f(x)]
  {
    assert forall i :: 0 <= i < |s| ==> (s + [x])[i] == s[i];
  }

  /** Lower-cases one ASCII letter; every other character is kept. */
  function LowerChar(c: char): char {
    if 'A' <= c <= 'Z' then (c as int + 32) as char else c
  }

  /** True when `c` is not an upper-case ASCII letter. */
  predicate IsLowerChar(c: char) {
    !('A' <= c <= 'Z')
  }

  /** ASCII lower-casing of a string, character by character. */
  function Lower(s: string): (r: string)
    ensures |r| == |s|
    ensures forall i :: 0 <= i < |s| ==> r[i] == LowerChar(s[i])
    ensures forall i :: 0 <= i < |r| ==> IsLowerChar(r[i])
  {
    if |s| == 0 then [] else [LowerChar(s[0])] + Lower(s[1..])
  }

  /** A string without upper-case letters is its own lower-case form. */
  lemma {:induction false} LowerOfLower(s: string)
    requires forall i :: 0 <= i < |s| ==> IsLowerChar(s[i])
    ensures Lower(s) == s
  {
    if |s| > 0 {
      LowerOfLower(s[1..]);
    }
  }

  /** Lower-casing is idempotent. */
  lemma LowerIdempotent(s: string)
    ensures Lower(Lower(s)) == Lower(s)
  {
    LowerOfLower(Lower(s));
  }
}

=== FILE: migration_engine.dfy ===
/**
  The migration engine: reconciles a live warehouse table with the schema the
  mapper derived, under the configured migration mode (clients/bigquery.py,
  the mode check in `__init__`, `_compare_schemas`, `create_or_update_table`,
  `_add_fields_to_table`, `_remove_fields_from_table`).

  The warehouse is a value: `None` for an absent table, `Some(columns)` for a
  present one. A reconcile returns the write calls it issued, the table after
  them, and whether an error escaped. Which warehouse calls fail is an input.
 */
module MigrationEngine {
  import opened Common
  import opened SchemaMapper

  // ---------------------------------------------------------------------------
  // Migration mode
  // ---------------------------------------------------------------------------

  /** `weak` never alters an existing table, `balanced` only adds, `hard` adds and removes. */
  datatype Mode = Weak | Balanced | Hard

  function ModeName(m: Mode): string {
    match m
    case Weak => "weak"
    case Balanced => "balanced"
    case Hard => "hard"
  }

  /** The configured mode string, compared after lower-casing; `None` is the constructor's ValueError. */
  function ParseMode(s: string): (r: Option<Mode>)
    ensures r.Some? <==> Lower(s) in {"weak", "balanced", "hard"}
    ensures r.Some? ==> ModeName(r.value) == Lower(s)
  {
    var k := Lower(s);
    if k == "weak" then Some(Weak)
    else if k == "balanced" then Some(Balanced)
    else if k == "hard" then Some(Hard)
    else None
  }

  /** Every spelling of a mode name, in any letter case, selects that mode. */
  lemma ParseModeName(m: Mode, s: string)
    requires Lower(s) == ModeName(m)
    ensures ParseMode(s) == Some(m)
  {
  }

  // ---------------------------------------------------------------------------
  // Schema comparison
  // ---------------------------------------------------------------------------

  /** The field-name differences between the live table and the derived schema. */
  datatype SchemaChanges = SchemaChanges(added: set<string>, removed: set<string>, kept: set<string>)

  /** Compares field names; removals are only computed in `hard` mode. */
  function CompareSchemas(mode: Mode, existing: set<string>, wanted: set<string>): (r: SchemaChanges)
    ensures r.added !! existing && r.added <= wanted
    ensures r.added + r.kept == wanted && r.added !! r.kept
    ensures r.removed !! wanted && r.removed <= existing
    ensures r.removed != {} ==> mode == Hard
    ensures mode == Hard ==> r.removed + r.kept == existing && r.removed !! r.kept
    ensures r.kept <= existing
  {
    SchemaChanges(
      wanted - existing,
      if mode == Hard then existing - wanted else {},
      existing * wanted)
  }

  // ---------------------------------------------------------------------------
  // Column-list edits
  // ---------------------------------------------------------------------------

  /** The columns of `cols` whose name is in `names`, in their order. */
  function OnlyNamed(cols: seq<Column>, names: set<string>): (r: seq<Column>)
    ensures forall c :: c in r <==> c in cols && c.name in names
    ensures Subsequence(r, cols)
  {
    if |cols| == 0 then []
    else if cols[0].name in names then [cols[0]] + OnlyNamed(cols[1..], names)
    else OnlyNamed(cols[1..], names)
  }

  /** The columns of `cols` whose name is not in `names`, in their order. */
  function ExceptNamed(cols: seq<Column>, names: set<string>): (r: seq<Column>)
    ensures forall c :: c in r <==> c in cols && c.name !in names
    ensures Subsequence(r, cols)
  {
    if |cols| == 0 then []
    else if cols[0].name !in names then [cols[0]] + ExceptNamed(cols[1..], names)
    else ExceptNamed(cols[1..], names)
  }

  lemma Names_OnlyNamed(cols: seq<Column>, names: set<string>)
    ensures Names(OnlyNamed(cols, names)) == Names(cols) * names
  {
    var r := OnlyNamed(cols, names);
    forall n | n in Names(cols) * names ensures n in Names(r) {
      var c :| c in cols && c.name == n;
      assert c in r;
    }
  }

  lemma Names_ExceptNamed(cols: seq<Column>, names: set<string>)
    ensures Names(ExceptNamed(cols, names)) == Names(cols) - names
  {
    var r := ExceptNamed(cols, names);
    forall n | n in Names(cols) - names ensures n in Names(r) {
      var c :| c in cols && c.name == n;
      assert c in r;
    }
  }

  /** Every kept column is kept as often as it occurs. */
  lemma {:induction false} OnlyNamedCounts(cols: seq<Column>, names: set<string>)
    ensures forall c :: multiset(OnlyNamed(cols, names))[c] == if c.name in names then multiset(cols)[c] else 0
  {
    if |cols| > 0 {
      OnlyNamedCounts(cols[1..], names);
      assert cols == [cols[0]] + cols[1..];
    }
  }

  /** Every column that is not dropped is kept as often as it occurs. */
  lemma {:induction false} ExceptNamedCounts(cols: seq<Column>, names: set<string>)
    ensures forall c :: multiset(ExceptNamed(cols, names))[c] == if c.name in names then 0 else multiset(cols)[c]
  {
    if |cols| > 0 {
      ExceptNamedCounts(cols[1..], names);
      assert cols == [cols[0]] + cols[1..];
    }
  }

  /**
    The schema sent by the add step: the live columns, untouched and in order,
    followed by the derived columns whose names are being added, in schema order.
   */
  function AddFields(cols: seq<Column>, schema: seq<Column>, added: set<string>): (r: seq<Column>)
    ensures cols <= r
    ensures forall c :: c in r[|cols|..] <==> c in schema && c.name in added
    ensures Subsequence(r[|cols|..], schema)
    ensures Names(r) == Names(cols) + Names(schema) * added
  {
    var r := cols + OnlyNamed(schema, added);
    assert r[|cols|..] == OnlyNamed(schema, added);
    Names_Append(cols, OnlyNamed(schema, added));
    Names_OnlyNamed(schema, added);
    r
  }

  /** The schema sent by the remove step: exactly the columns whose names are not removed, in order. */
  function RemoveFields(cols: seq<Column>, removed: set<string>): (r: seq<Column>)
    ensures forall c :: c in r <==> c in cols && c.name !in removed
    ensures Subsequence(r, cols)
    ensures Names(r) == Names(cols) - removed
  {
    Names_ExceptNamed(cols, removed);
    ExceptNamed(cols, removed)
  }

  /**
    The add step appends every derived column whose name is added exactly as
    often as the derived schema holds it, and no other column.
   */
  lemma AddFieldsCounts(cols: seq<Column>, schema: seq<Column>, added: set<string>)
    ensures var r := AddFields(cols, schema, added);
            forall c :: multiset(r[|cols|..])[c] == if c.name in added then multiset(schema)[c] else 0
  {
    var r := AddFields(cols, schema, added);
    assert r[|cols|..] == OnlyNamed(schema, added);
    OnlyNamedCounts(schema, added);
  }

  /** The remove step keeps every column whose name is not removed exactly as often as it occurs. */
  lemma RemoveFieldsCounts(cols: seq<Column>, removed: set<string>)
    ensures forall c :: multiset(RemoveFields(cols, removed))[c] == if c.name in removed then 0 else multiset(cols)[c]
  {
    ExceptNamedCounts(cols, removed);
  }

  // ---------------------------------------------------------------------------
  // Reconcile
  // ---------------------------------------------------------------------------

  /** A table as the warehouse holds it: absent, or its ordered columns. */
  type TableState = Option<seq<Column>>

  /** A write call issued to the warehouse. */
  datatype Call = CreateTable(columns: seq<Column>) | UpdateSchema(columns: seq<Column>)

  /**
    Which warehouse calls fail for reasons other than the table's absence:
    the table lookup, the second lookup that reads the existing field names,
    the add update, the remove update, and the creation of an absent table.
    (Creating a present table always fails; that needs no flag.)
   */
  datatype Faults = Faults(lookupFails: bool, fieldsLookupFails: bool, addFails: bool, removeFails: bool,
                           createFails: bool)

  const NoFaults := Faults(false, false, false, false, false)

  predicate AnyFault(f: Faults) {
    f.lookupFails || f.fieldsLookupFails || f.addFails || f.removeFails || f.createFails
  }

  /** The calls issued, the table afterwards, and whether an error left the reconcile. */
  datatype Outcome = Outcome(calls: seq<Call>, after: TableState, raised: bool)

  /**
    The fallback of every failure path: after `issued`, create the table from
    the derived schema. The warehouse refuses to create a table that exists,
    so on a present table the creation fails, the table stays as it was and
    the error leaves the reconcile; creating an absent table fails only when
    `createFails` says so, and then no table exists afterwards.
   */
  function CreateFallback(table: TableState, schema: seq<Column>, issued: seq<Call>, createFails: bool)
    : (r: Outcome)
    ensures r.calls == issued + [CreateTable(schema)]
    ensures table.None? ==> (r.raised <==> createFails)
    ensures table.None? && !createFails ==> r.after == Some(schema)
    ensures table.None? && createFails ==> r.after.None?
    ensures table.Some? ==> r.after == table && r.raised
  {
    if table.None? && !createFails then Outcome(issued + [CreateTable(schema)], Some(schema), false)
    else Outcome(issued + [CreateTable(schema)], table, true)
  }

  /** The field names the engine sees on a present table: none when the second lookup fails. */
  function ExistingFields(cols: seq<Column>, faults: Faults): (r: set<string>)
    ensures r <= Names(cols)
    ensures r == Names(cols) <==> !faults.fieldsLookupFails || cols == []
    ensures faults.fieldsLookupFails ==> r == {}
  {
    if faults.fieldsLookupFails then
      assert |cols| > 0 ==> cols[0].name in Names(cols);
      assert |cols| == 0 ==> Names(cols) == {};
      {}
    else Names(cols)
  }

  /** The add and remove steps on a present table whose changes are not both empty. */
  function ApplyChanges(mode: Mode, cols: seq<Column>, schema: seq<Column>, changes: SchemaChanges, faults: Faults)
    : (r: Outcome)
    requires changes.removed != {} ==> mode == Hard
    ensures mode != Hard ==> forall c :: c in r.calls && c.UpdateSchema? ==> cols <= c.columns
    ensures mode != Hard && r.after.Some? ==> cols <= r.after.value
    ensures r.raised ==> |r.calls| > 0 && r.calls[|r.calls| - 1] == CreateTable(schema)
    ensures r.raised ==> faults.addFails || faults.removeFails
    // Only a call that was issued can fail: an add with nothing to add or a remove with nothing to remove raises nothing.
    ensures r.raised ==> (changes.added != {} && faults.addFails) || (changes.removed != {} && faults.removeFails)
    ensures r.after.Some?
  {
    var grown := if changes.added != {} then AddFields(cols, schema, changes.added) else cols;
    var addCalls := if changes.added != {} then [UpdateSchema(grown)] else [];
    if changes.added != {} && faults.addFails then
      CreateFallback(Some(cols), schema, addCalls, faults.createFails)
    else if mode == Hard && changes.removed != {} then
      var shrunk := RemoveFields(grown, changes.removed);
      if faults.removeFails then CreateFallback(Some(grown), schema, addCalls + [UpdateSchema(shrunk)], faults.createFails)
      else Outcome(addCalls + [UpdateSchema(shrunk)], Some(shrunk), false)
    else
      Outcome(addCalls, Some(grown), false)
  }

  /**
    `create_or_update_table`: an absent table (or a failed lookup) leads to
    creation; `weak` leaves a present table alone; `balanced` and `hard` diff
    the field names and issue the add and (in `hard`) remove updates.
   */
  function Reconcile(mode: Mode, table: TableState, schema: seq<Column>, faults: Faults): (r: Outcome)
    // An absent table is created with the derived schema verbatim, whatever the mode;
    // if that creation fails, the error escapes and the table is still absent.
    ensures table.None? ==> r.calls == [CreateTable(schema)] && (r.raised <==> faults.createFails)
    ensures table.None? && !faults.createFails ==> r.after == Some(schema)
    ensures table.None? && faults.createFails ==> r.after.None?
    // `weak` never alters a present table.
    ensures table.Some? && mode == Weak ==>
              r.after == table && forall c :: c in r.calls ==> c.CreateTable?
    // Outside `hard` every update keeps the live columns as a prefix: nothing is removed.
    ensures table.Some? && mode != Hard ==>
              forall c :: c in r.calls && c.UpdateSchema? ==> table.value <= c.columns
    ensures table.Some? && mode != Hard && r.after.Some? ==> table.value <= r.after.value
    // An error only escapes after a failed call, and only from the fallback creation.
    ensures r.raised ==> AnyFault(faults)
    ensures r.raised ==> |r.calls| > 0 && r.calls[|r.calls| - 1] == CreateTable(schema)
    // A present table is never lost; only a failed creation leaves no table.
    ensures table.Some? ==> r.after.Some?
    ensures r.after.None? ==> table.None? && r.raised
  {
    if table.None? || faults.lookupFails then CreateFallback(table, schema, [], faults.createFails)
    else if mode == Weak then Outcome([], table, false)
    else
      var cols := table.value;
      var changes := CompareSchemas(mode, ExistingFields(cols, faults), Names(schema));
      if changes.added == {} && changes.removed == {} then Outcome([], table, false)
      else ApplyChanges(mode, cols, schema, changes, faults)
  }

  // ---------------------------------------------------------------------------
  // Properties of a reconcile
  // ---------------------------------------------------------------------------

  /**
    With no failures, `balanced` and `hard` issue a call exactly when the
    comparison finds something to add or (in `hard`) to remove.
   */
  lemma NoCallsIffUpToDate(mode: Mode, cols: seq<Column>, schema: seq<Column>)
    requires mode != Weak
    ensures var changes := CompareSchemas(mode, Names(cols), Names(schema));
            Reconcile(mode, Some(cols), schema, NoFaults).calls == []
            <==> changes.added == {} && changes.removed == {}
  {
  }

  /** A `removed` set is only ever acted upon in `hard` mode: in `balanced` it is computed empty. */
  lemma BalancedNeverRemoves(cols: seq<Column>, schema: seq<Column>, faults: Faults)
    ensures var r := Reconcile(Balanced, Some(cols), schema, faults);
            Names(cols) <= Names(r.after.value)
  {
    var r := Reconcile(Balanced, Some(cols), schema, faults);
    forall n | n in Names(cols) ensures n in Names(r.after.value) {
      var c :| c in cols && c.name == n;
      assert c in r.after.value;
    }
  }

  /** The names of the table after a fault-free reconcile of a present table. */
  lemma ReconciledNames(mode: Mode, cols: seq<Column>, schema: seq<Column>)
    ensures var r := Reconcile(mode, Some(cols), schema, NoFaults);
            && (mode == Balanced ==> Names(r.after.value) == Names(cols) + Names(schema))
            && (mode == Hard ==> Names(r.after.value) == Names(schema))
            && (mode == Weak ==> r.after.value == cols)
  {
    if mode != Weak {
      FaultFreeCalls(mode, cols, schema);
      var added := Names(schema) - Names(cols);
      var grown := if added != {} then AddFields(cols, schema, added) else cols;
      assert Names(grown) == Names(cols) + Names(schema) * added;
    }
  }

  /**
    The exact updates of a fault-free reconcile of a present table in
    `balanced` or `hard`: one update adding the missing derived columns after
    the live ones, when there are any, then (in `hard`) one update sending
    that schema without the names the derived schema lacks, when there are any.
    The table ends as the last update left it.
   */
  lemma FaultFreeCalls(mode: Mode, cols: seq<Column>, schema: seq<Column>)
    requires mode != Weak
    ensures var added := Names(schema) - Names(cols);
            var removed := Names(cols) - Names(schema);
            var grown := if added != {} then AddFields(cols, schema, added) else cols;
            var r := Reconcile(mode, Some(cols), schema, NoFaults);
            && r.calls == (if added != {} then [UpdateSchema(grown)] else [])
                          + (if mode == Hard && removed != {} then [UpdateSchema(RemoveFields(grown, removed))] else [])
            && r.after == Some(if mode == Hard && removed != {} then RemoveFields(grown, removed) else grown)
            && !r.raised
  {
    assert ExistingFields(cols, NoFaults) == Names(cols);
  }

  /**
    A failed call on a present table leads to the fallback creation, which
    fails on the existing table, so the error escapes. A failed lookup leaves
    the table untouched. A failed add leaves the live columns, after the one
    attempted update. A failed remove leaves the grown schema the add step
    wrote.
   */
  lemma FailedCallFallsBack(mode: Mode, cols: seq<Column>, schema: seq<Column>, faults: Faults)
    ensures var r := Reconcile(mode, Some(cols), schema, faults);
            var changes := CompareSchemas(mode, ExistingFields(cols, faults), Names(schema));
            var grown := if changes.added != {} then AddFields(cols, schema, changes.added) else cols;
            && (faults.lookupFails ==> r == Outcome([CreateTable(schema)], Some(cols), true))
            && (mode != Weak && !faults.lookupFails && changes.added != {} && faults.addFails ==>
                  r == Outcome([UpdateSchema(grown), CreateTable(schema)], Some(cols), true))
            && (mode == Hard && !faults.lookupFails && !(changes.added != {} && faults.addFails)
                && changes.removed != {} && faults.removeFails ==>
                  r == Outcome((if changes.added != {} then [UpdateSchema(grown)] else [])
                                 + [UpdateSchema(RemoveFields(grown, changes.removed)), CreateTable(schema)],
                               Some(grown), true))
  {
    var changes := CompareSchemas(mode, ExistingFields(cols, faults), Names(schema));
    if !faults.lookupFails && mode != Weak && (changes.added != {} || changes.removed != {}) {
      FailedUpdateFallsBack(mode, cols, schema, changes, faults);
    }
  }

  /** The failure half of the add and remove steps. */
  lemma FailedUpdateFallsBack(mode: Mode, cols: seq<Column>, schema: seq<Column>, changes: SchemaChanges, faults: Faults)
    requires changes.removed != {} ==> mode == Hard
    ensures var r := ApplyChanges(mode, cols, schema, changes, faults);
            var grown := if changes.added != {} then AddFields(cols, schema, changes.added) else cols;
            && (changes.added != {} && faults.addFails ==>
                  r == Outcome([UpdateSchema(grown), CreateTable(schema)], Some(cols), true))
            && (!(changes.added != {} && faults.addFails) && changes.removed != {} && faults.removeFails ==>
                  r == Outcome((if changes.added != {} then [UpdateSchema(grown)] else [])
                                 + [UpdateSchema(RemoveFields(grown, changes.removed)), CreateTable(schema)],
                               Some(grown), true))
  {
  }

  /**
    An error escapes a reconcile of a present table only when a call that was
    actually issued fails: the table lookup, the add update when there is
    something to add, or (in `hard`) the remove update when there is
    something to remove.
   */
  lemma RaisedOnlyAfterIssuedCallFails(mode: Mode, cols: seq<Column>, schema: seq<Column>, faults: Faults)
    ensures var r := Reconcile(mode, Some(cols), schema, faults);
            var changes := CompareSchemas(mode, ExistingFields(cols, faults), Names(schema));
            r.raised ==> || faults.lookupFails
                         || (mode != Weak && changes.added != {} && faults.addFails)
                         || (mode == Hard && changes.removed != {} && faults.removeFails)
  {
  }

  /**
    Migration is idempotent: after a fault-free reconcile, reconciling again
    with the same schema issues no call and leaves the table as it is.
   */
  lemma ReconcileIdempotent(mode: Mode, table: TableState, schema: seq<Column>)
    ensures var first := Reconcile(mode, table, schema, NoFaults);
            var second := Reconcile(mode, first.after, schema, NoFaults);
            second.calls == [] && second.after == first.after && !second.raised
  {
    var first := Reconcile(mode, table, schema, NoFaults);
    var after := first.after.value;
    if mode != Weak {
      if table.None? {
        assert after == schema;
      } else {
        ReconciledNames(mode, table.value, schema);
      }
      var changes := CompareSchemas(mode, Names(after), Names(schema));
      assert changes.added == {};
      assert changes.removed == {};
    }
  }

  /**
    When the second field lookup fails on a present table, the add step sees
    no existing names and re-sends every derived column after the live ones,
    so a name the table already has appears twice in the update.
   */
  lemma FieldsLookupFailureResendsColumns(mode: Mode, cols: seq<Column>, schema: seq<Column>)
    requires mode != Weak && |schema| > 0
    ensures var r := Reconcile(mode, Some(cols), schema, Faults(false, true, false, false, false));
            r.calls == [UpdateSchema(cols + schema)] && r.after == Some(cols + schema)
  {
    var changes := CompareSchemas(mode, {}, Names(schema));
    assert schema[0] in schema;
    assert changes.added == Names(schema);
    assert schema[0].name in changes.added;
    assert OnlyNamed(schema, Names(schema)) == schema by { OnlyNamedAll(schema); }
    assert AddFields(cols, schema, changes.added) == cols + schema;
    assert changes.removed == {};
  }

  /** Removing the same names twice removes nothing more. */
  lemma RemoveFieldsIdempotent(cols: seq<Column>, removed: set<string>)
    ensures RemoveFields(RemoveFields(cols, removed), removed) == RemoveFields(cols, removed)
  {
    ExceptNamedNone(RemoveFields(cols, removed), removed);
  }

  lemma {:induction false} ExceptNamedNone(cols: seq<Column>, names: set<string>)
    requires forall c :: c in cols ==> c.name !in names
    ensures ExceptNamed(cols, names) == cols
  {
    if |cols| > 0 {
      assert cols[0] in cols;
      ExceptNamedNone(cols[1..], names);
    }
  }

  lemma {:induction false} OnlyNamedAll(cols: seq<Column>)
    ensures OnlyNamed(cols, Names(cols)) == cols
  {
    OnlyNamedSuperset(cols, Names(cols));
  }

  lemma {:induction false} OnlyNamedSuperset(cols: seq<Column>, names: set<string>)
    requires Names(cols) <= names
    ensures OnlyNamed(cols, names) == cols
  {
    if |cols| > 0 {
      assert cols[0] in cols;
      assert Names(cols[1..]) <= Names(cols) by {
        forall n | n in Names(cols[1..]) ensures n in Names(cols) {
          var c :| c in cols[1..] && c.name == n;
          assert c in cols;
        }
      }
      OnlyNamedSuperset(cols[1..], names);
    }
  }
}

=== FILE: row_reconciler.dfy ===
/**
  Row reconciliation (clients/bigquery.py, `insert_entities`): every entity of
  a fetched page is shaped into a row over the table's columns and routed to
  the insert half when its identifier is new, to the update half when the
  table already holds it. The table's columns and its existing identifiers
  are inputs; the rows to insert and the update statements are the result.
 */
module RowReconciler {
  import opened Common
  import opened SchemaMapper
  import opened RowShaping
  import opened UpdateGrouping

  /** The entities whose identifier is in `existing` (`present`) or not (`!present`), in input order. */
  function Routed(es: seq<Entity>, existing: set<string>, present: bool): (r: seq<Entity>)
    ensures Subsequence(r, es)
  {
    if |es| == 0 then []
    else if (es[0].identifier in existing) == present then [es[0]] + Routed(es[1..], existing, present)
    else Routed(es[1..], existing, present)
  }

  /** An entity is routed to a half exactly when it is in the input and its identifier selects that half. */
  lemma {:induction false} RoutedMembers(es: seq<Entity>, existing: set<string>, present: bool, e: Entity)
    ensures e in Routed(es, existing, present) <==> e in es && (e.identifier in existing) == present
  {
    if |es| > 0 {
      RoutedMembers(es[1..], existing, present, e);
      assert e in es <==> e == es[0] || e in es[1..];
    }
  }

  lemma {:induction false} RoutedSnoc(es: seq<Entity>, x: Entity, existing: set<string>, present: bool)
    ensures Routed(es + [x], existing, present)
            == Routed(es, existing, present) + (if (x.identifier in existing) == present then [x] else [])
  {
    if |es| == 0 {
      assert es + [x] == [x];
    } else {
      assert (es + [x])[1..] == es[1..] + [x];
      RoutedSnoc(es[1..], x, existing, present);
    }
  }

  /** Every entity is routed to exactly one half: together the halves are the input. */
  lemma {:induction false} PartitionComplete(es: seq<Entity>, existing: set<string>)
    ensures multiset(Routed(es, existing, true)) + multiset(Routed(es, existing, false)) == multiset(es)
    ensures |Routed(es, existing, true)| + |Routed(es, existing, false)| == |es|
  {
    if |es| > 0 {
      PartitionComplete(es[1..], existing);
      assert es == [es[0]] + es[1..];
    }
  }

  /** When no identifier is known (an empty table, or an identifier query that fails before returning any row), everything is inserted. */
  lemma {:induction false} NothingKnownAllInserted(es: seq<Entity>)
    ensures Routed(es, {}, false) == es && Routed(es, {}, true) == []
  {
    if |es| > 0 {
      NothingKnownAllInserted(es[1..]);
    }
  }

  /** Shaping against a fixed set of table columns. */
  function Shaper(columns: set<string>): Entity -> Row {
    e => ShapeRow(e, columns)
  }

  /** The rows of a sequence of entities, in order; each carries its identifier. */
  function ShapeAll(es: seq<Entity>, columns: set<string>): (r: seq<Row>)
    ensures HasIdentifiers(r)
  {
    ShapedRowsHaveIdentifiers(es, columns);
    Map(Shaper(columns), es)
  }

  /** One step of the routing loop: the entity's row joins exactly the half its identifier selects. */
  lemma RouteStep<R>(es: seq<Entity>, x: Entity, shape: Entity -> R, existing: set<string>, present: bool)
    ensures Map(shape, Routed(es + [x], existing, present))
            == if (x.identifier in existing) == present
               then Map(shape, Routed(es, existing, present)) + [shape(x)]
               else Map(shape, Routed(es, existing, present))
  {
    RoutedSnoc(es, x, existing, present);
    if (x.identifier in existing) == present {
      MapSnoc(shape, Routed(es, existing, present), x);
    }
  }

  /**
    The loop of `insert_entities`: shape each entity (`shape` is the row
    preparation against the table's columns) and route its row by identifier.
   */
  method PartitionRows<R>(entities: seq<Entity>, shape: Entity -> R, existing: set<string>)
    returns (toInsert: seq<R>, toUpdate: seq<R>)
    ensures toInsert == Map(shape, Routed(entities, existing, false))
    ensures toUpdate == Map(shape, Routed(entities, existing, true))
  {
    toInsert, toUpdate := [], [];
    for i := 0 to |entities|
      invariant toInsert == Map(shape, Routed(entities[..i], existing, false))
      invariant toUpdate == Map(shape, Routed(entities[..i], existing, true))
    {
      var e := entities[i];
      var row := shape(e);
      assert entities[..i + 1] == entities[..i] + [e];
      RouteStep(entities[..i], e, shape, existing, false);
      RouteStep(entities[..i], e, shape, existing, true);
      if e.identifier in existing {
        toUpdate := toUpdate + [row];
      } else {
        toInsert := toInsert + [row];
      }
    }
    assert entities[..|entities|] == entities;
  }

  /** Shaped rows always carry their identifier, so the update half can pop it. */
  lemma ShapedRowsHaveIdentifiers(es: seq<Entity>, columns: set<string>)
    ensures HasIdentifiers(Map(Shaper(columns), es))
  {
    forall i | 0 <= i < |es| ensures "identifier" in Map(Shaper(columns), es)[i] {
      ShapeRowBounds(es[i], columns);
    }
  }

  /**
    `insert_entities` on a table with columns `cols` whose existing
    identifiers are `existing`: the rows of new entities for the bulk insert,
    and the bulk update of the rows of already-present entities, which holds
    one statement per such row.
   */
  method InsertEntities(cols: seq<Column>, existing: set<string>, entities: seq<Entity>)
    returns (inserted: seq<Row>, updates: seq<UpdateStatement>)
    ensures inserted == ShapeAll(Routed(entities, existing, false), Names(cols))
    ensures updates == BulkUpdate(cols, ShapeAll(Routed(entities, existing, true), Names(cols)))
    ensures |inserted| + |updates| == |entities|
  {
    var toUpdate;
    inserted, toUpdate := PartitionRows(entities, Shaper(Names(cols)), existing);
    updates := BulkUpdate(cols, toUpdate);
    PartitionComplete(entities, existing);
    assert |multiset(updates)| == |toUpdate|;
  }
}

=== FILE: row_shaping.dfy ===
/**
  Row shaping: one catalog entity becomes one flat warehouse row holding the
  four base columns and the entity's fields whose names are table columns
  (clients/bigquery.py, `_prepare_entity_row`).
 */
module RowShaping {

  /**
    A JSON value as the catalog returns it. `JsonText(v)` stands for the
    JSON text of `v` (Python's `json.dumps(v)`), kept as a tag instead of
    its characters: two encodings are equal exactly when the values are.
   */
  datatype Value =
    | Null
    | Str(s: string)
    | Number(x: real)
    | Boolean(b: bool)
    | Array(items: seq<Value>)
    | Object(fields: map<string, Value>)
    | JsonText(doc: Value)

  /** A catalog entity; a missing `createdAt`/`updatedAt` is `Null`, a missing field map is empty. */
  datatype Entity = Entity(
    identifier: string,
    title: Value,
    createdAt: Value,
    updatedAt: Value,
    properties: map<string, Value>,
    relations: map<string, Value>,
    calculationProperties: map<string, Value>,
    aggregationProperties: map<string, Value>,
    mirrorProperties: map<string, Value>)

  /** A warehouse row: column name to value. */
  type Row = map<string, Value>

  const BaseKeys: set<string> := {"identifier", "title", "created_at", "updated_at"}

  /** The entries of `m` whose key is a table column. */
  function KnownOnly(m: map<string, Value>, columns: set<string>): (r: map<string, Value>)
    ensures r.Keys == m.Keys * columns
    ensures forall k :: k in r ==> r[k] == m[k]
  {
    map k | k in m && k in columns :: m[k]
  }

  /** Relation values that are stored: a single identifier (string) or a list of them. */
  predicate Storable(v: Value) {
    v.Str? || v.Array?
  }

  /** How a stored relation value is written: a string as is, a list as its JSON text. */
  function EncodeRelation(v: Value): (r: Value)
    requires Storable(v)
    ensures v.Str? ==> r == v
    ensures v.Array? ==> r == JsonText(v)
  {
    if v.Str? then v else JsonText(v)
  }

  /** The relation names whose value is stored. */
  function StorableKeys(relations: map<string, Value>): set<string> {
    set k | k in relations && Storable(relations[k])
  }

  /** The relation columns of a row: known relations with a storable value, encoded. */
  function RelationColumns(relations: map<string, Value>, columns: set<string>): (r: map<string, Value>)
    ensures r.Keys == columns * StorableKeys(relations)
    ensures forall k :: k in r ==> r[k] == EncodeRelation(relations[k])
  {
    map k | k in relations && k in columns && Storable(relations[k]) :: EncodeRelation(relations[k])
  }

  /** Python's `row[k] = v` for every entry of `b`, in turn: `b` wins on shared keys. */
  function Overlay(a: Row, b: Row): (r: Row)
    ensures r.Keys == a.Keys + b.Keys
    ensures forall k {:trigger r[k]} :: k in b ==> r[k] == b[k]
    ensures forall k {:trigger r[k]} :: k in a && k !in b ==> r[k] == a[k]
  {
    a + b
  }

  /** The base columns of a row, from the entity's identifier, title and timestamps. */
  function BaseRow(e: Entity): (r: Row)
    ensures r.Keys == BaseKeys
  {
    map["identifier" := Str(e.identifier), "title" := e.title,
        "created_at" := e.createdAt, "updated_at" := e.updatedAt]
  }

  /** The keys an entity can contribute beyond the base columns. */
  function SuppliedKeys(e: Entity): set<string> {
    e.properties.Keys
      + StorableKeys(e.relations)
      + e.calculationProperties.Keys
      + e.aggregationProperties.Keys
      + e.mirrorProperties.Keys
  }

  /** The keys set by the sections after relations: a relation column with such a key is overwritten. */
  function LaterKeys(e: Entity): set<string> {
    e.calculationProperties.Keys + e.aggregationProperties.Keys + e.mirrorProperties.Keys
  }

  /** The row as it stands after the base columns, properties and relations. */
  function ThroughRelations(e: Entity, columns: set<string>): (r: Row)
    ensures r.Keys == BaseKeys + columns * (e.properties.Keys + StorableKeys(e.relations))
    ensures "identifier" !in columns * (e.properties.Keys + StorableKeys(e.relations)) ==>
              r["identifier"] == Str(e.identifier)
    ensures forall k :: k in columns && k in e.relations && Storable(e.relations[k]) ==>
              k in r && r[k] == EncodeRelation(e.relations[k])
  {
    Overlay(Overlay(BaseRow(e), KnownOnly(e.properties, columns)), RelationColumns(e.relations, columns))
  }

  /** A base column that no known property or stored relation names keeps its base value. */
  lemma ThroughRelationsBase(e: Entity, columns: set<string>, k: string)
    requires k in BaseKeys && k !in columns * (e.properties.Keys + StorableKeys(e.relations))
    ensures k in ThroughRelations(e, columns) && ThroughRelations(e, columns)[k] == BaseRow(e)[k]
  {
  }

  /** A known property that no stored relation of the same name overwrites keeps its value. */
  lemma ThroughRelationsProperty(e: Entity, columns: set<string>, k: string)
    requires k in columns && k in e.properties && k !in StorableKeys(e.relations)
    ensures k in ThroughRelations(e, columns) && ThroughRelations(e, columns)[k] == e.properties[k]
  {
  }

  /** The row after the calculation, aggregation and mirror sections are written over `t`. */
  function LaterSections(t: Row, calcs: map<string, Value>, aggs: map<string, Value>, mirrors: map<string, Value>,
                         columns: set<string>): Row {
    Overlay(Overlay(Overlay(t, KnownOnly(calcs, columns)), KnownOnly(aggs, columns)), KnownOnly(mirrors, columns))
  }

  /** A column none of the later sections writes keeps the value it had. */
  lemma LaterSectionsKeep(t: Row, calcs: map<string, Value>, aggs: map<string, Value>, mirrors: map<string, Value>,
                          columns: set<string>, k: string)
    requires k in t && !(k in columns && (k in calcs || k in aggs || k in mirrors))
    ensures k in LaterSections(t, calcs, aggs, mirrors, columns)
    ensures LaterSections(t, calcs, aggs, mirrors, columns)[k] == t[k]
  {
  }

  /** A known calculation value that neither later section overwrites reaches its column. */
  lemma LaterSectionsCalculation(t: Row, calcs: map<string, Value>, aggs: map<string, Value>,
                                 mirrors: map<string, Value>, columns: set<string>, k: string)
    requires k in columns && k in calcs && k !in aggs && k !in mirrors
    ensures k in LaterSections(t, calcs, aggs, mirrors, columns)
    ensures LaterSections(t, calcs, aggs, mirrors, columns)[k] == calcs[k]
  {
  }

  /** A known aggregation value that no mirror value overwrites reaches its column. */
  lemma LaterSectionsAggregation(t: Row, calcs: map<string, Value>, aggs: map<string, Value>,
                                 mirrors: map<string, Value>, columns: set<string>, k: string)
    requires k in columns && k in aggs && k !in mirrors
    ensures k in LaterSections(t, calcs, aggs, mirrors, columns)
    ensures LaterSections(t, calcs, aggs, mirrors, columns)[k] == aggs[k]
  {
  }

  /** Writing the calculation, aggregation and mirror sections adds their known names to the row's columns. */
  lemma LaterSectionsKeys(t: Row, calcs: map<string, Value>, aggs: map<string, Value>, mirrors: map<string, Value>,
                          columns: set<string>)
    ensures LaterSections(t, calcs, aggs, mirrors, columns).Keys
            == t.Keys + columns * calcs.Keys + columns * aggs.Keys + columns * mirrors.Keys
  {
  }

  /** Restricting each section to the table columns is restricting their union. */
  lemma KnownKeysUnion(columns: set<string>, a: set<string>, b: set<string>, c: set<string>, d: set<string>)
    ensures BaseKeys + columns * a + columns * b + columns * c + columns * d == BaseKeys + columns * (a + b + c + d)
  {
  }

  /**
    The row of an entity: the base columns, then properties, relations,
    calculation, aggregation and mirror values whose names are table columns,
    each section overwriting a same-named column of the ones before it.
   */
  function ShapeRow(e: Entity, columns: set<string>): Row {
    LaterSections(ThroughRelations(e, columns), e.calculationProperties, e.aggregationProperties,
                  e.mirrorProperties, columns)
  }

  /** A row's columns are the base columns and every supplied field that names a table column. */
  lemma ShapeRowKeys(e: Entity, columns: set<string>)
    ensures ShapeRow(e, columns).Keys == BaseKeys + columns * SuppliedKeys(e)
  {
    var t := ThroughRelations(e, columns);
    LaterSectionsKeys(t, e.calculationProperties, e.aggregationProperties, e.mirrorProperties, columns);
    KnownKeysUnion(columns, e.properties.Keys + StorableKeys(e.relations), e.calculationProperties.Keys,
                   e.aggregationProperties.Keys, e.mirrorProperties.Keys);
  }

  /** A shaped row has the four base columns, and any other column it has is a table column. */
  lemma ShapeRowBounds(e: Entity, columns: set<string>)
    ensures BaseKeys <= ShapeRow(e, columns).Keys <= BaseKeys + columns
  {
    ShapeRowKeys(e, columns);
  }

  /** A known mirror value always reaches its column: mirror properties are written last. */
  lemma ShapeRowMirror(e: Entity, columns: set<string>, k: string)
    requires k in columns && k in e.mirrorProperties
    ensures k in ShapeRow(e, columns) && ShapeRow(e, columns)[k] == e.mirrorProperties[k]
  {
  }

  /** The identifier column holds the entity's identifier unless a known field of that name overwrites it. */
  lemma ShapeRowIdentifier(e: Entity, columns: set<string>)
    requires "identifier" !in columns * SuppliedKeys(e)
    ensures ShapeRow(e, columns)["identifier"] == Str(e.identifier)
  {
    var t := ThroughRelations(e, columns);
    LaterSectionsKeep(t, e.calculationProperties, e.aggregationProperties, e.mirrorProperties, columns, "identifier");
  }

  /**
    A base column that no known supplied field overwrites keeps its base value:
    the title and timestamp columns hold the entity's title, `createdAt` and
    `updatedAt`.
   */
  lemma ShapeRowBase(e: Entity, columns: set<string>, k: string)
    requires k in BaseKeys && k !in columns * SuppliedKeys(e)
    ensures k in ShapeRow(e, columns)
    ensures k == "title" ==> ShapeRow(e, columns)[k] == e.title
    ensures k == "created_at" ==> ShapeRow(e, columns)[k] == e.createdAt
    ensures k == "updated_at" ==> ShapeRow(e, columns)[k] == e.updatedAt
  {
    var t := ThroughRelations(e, columns);
    ThroughRelationsBase(e, columns, k);
    LaterSectionsKeep(t, e.calculationProperties, e.aggregationProperties, e.mirrorProperties, columns, k);
  }

  /** A known property that no stored relation and no later section overwrites is copied as is. */
  lemma ShapeRowProperty(e: Entity, columns: set<string>, k: string)
    requires k in columns && k in e.properties && k !in StorableKeys(e.relations) && k !in LaterKeys(e)
    ensures k in ShapeRow(e, columns) && ShapeRow(e, columns)[k] == e.properties[k]
  {
    var t := ThroughRelations(e, columns);
    ThroughRelationsProperty(e, columns, k);
    LaterSectionsKeep(t, e.calculationProperties, e.aggregationProperties, e.mirrorProperties, columns, k);
  }

  /** A known calculation value that no aggregation or mirror value overwrites is copied as is. */
  lemma ShapeRowCalculation(e: Entity, columns: set<string>, k: string)
    requires k in columns && k in e.calculationProperties
    requires k !in e.aggregationProperties && k !in e.mirrorProperties
    ensures k in ShapeRow(e, columns) && ShapeRow(e, columns)[k] == e.calculationProperties[k]
  {
    LaterSectionsCalculation(ThroughRelations(e, columns), e.calculationProperties, e.aggregationProperties,
                             e.mirrorProperties, columns, k);
  }

  /** A known aggregation value that no mirror value overwrites is copied as is. */
  lemma ShapeRowAggregation(e: Entity, columns: set<string>, k: string)
    requires k in columns && k in e.aggregationProperties && k !in e.mirrorProperties
    ensures k in ShapeRow(e, columns) && ShapeRow(e, columns)[k] == e.aggregationProperties[k]
  {
    LaterSectionsAggregation(ThroughRelations(e, columns), e.calculationProperties, e.aggregationProperties,
                             e.mirrorProperties, columns, k);
  }

  /**
    A known relation that no later section overwrites is stored in its column:
    a string as is, a list as its JSON text.
   */
  lemma ShapeRowRelation(e: Entity, columns: set<string>, k: string)
    requires k in columns && k in e.relations && k !in LaterKeys(e)
    requires Storable(e.relations[k])
    ensures k in ShapeRow(e, columns)
    ensures e.relations[k].Str? ==> ShapeRow(e, columns)[k] == e.relations[k]
    ensures e.relations[k].Array? ==> ShapeRow(e, columns)[k] == JsonText(e.relations[k])
  {
    var t := ThroughRelations(e, columns);
    LaterSectionsKeep(t, e.calculationProperties, e.aggregationProperties, e.mirrorProperties, columns, k);
  }

  /** A relation that is neither a string nor a list never reaches its column on its own. */
  lemma UnstorableRelationOmitted(e: Entity, columns: set<string>, k: string)
    requires k in e.relations && !Storable(e.relations[k])
    requires k !in BaseKeys && k !in e.properties && k !in LaterKeys(e)
    ensures k !in ShapeRow(e, columns)
  {
    ShapeRowKeys(e, columns);
  }
}

=== FILE: schema_mapper.dfy ===
/**
  The schema mapper: from a catalog blueprint to the ordered column list of
  the warehouse table that mirrors its entities (clients/bigquery.py,
  `_map_port_type_to_bigquery`, the five `_create_*_fields` helpers and
  `_create_schema_from_blueprint`). Everything here is pure and total.
 */
module SchemaMapper {
  import opened Common

  /** The warehouse column types the exporter uses, spelled as the warehouse spells them. */
  datatype ColumnType = STRING | FLOAT64 | BOOL | TIMESTAMP

  /** A column is either REQUIRED (NOT NULL) or NULLABLE. */
  datatype ColumnMode = REQUIRED | NULLABLE

  /** One warehouse column definition. */
  datatype Column = Column(name: string, columnType: ColumnType, mode: ColumnMode, description: Option<string>)

  /**
    The attributes of one blueprint field the mapper reads: `type`, `format`,
    `description`, `many` (relations) and `path` (mirror properties). An
    absent key is `None` (or `false` for `many`).
   */
  datatype Descriptor = Descriptor(
    kind: Option<string>,
    format: Option<string>,
    description: Option<string>,
    many: bool,
    path: Option<string>)

  /** One key of a blueprint sub-map together with its descriptor. */
  datatype Entry = Entry(name: string, descriptor: Descriptor)

  /** A blueprint sub-map in key order; `None` when the key is missing from the blueprint. */
  type FieldMap = Option<seq<Entry>>

  /** The blueprint's `schema` object: its `properties` and its `required` list. */
  datatype SchemaDoc = SchemaDoc(properties: FieldMap, required: seq<string>)

  /** A catalog blueprint, as far as the mapper reads it. */
  datatype Blueprint = Blueprint(
    identifier: string,
    schema: Option<SchemaDoc>,
    relations: FieldMap,
    calculationProperties: FieldMap,
    aggregationProperties: FieldMap,
    mirrorProperties: FieldMap)

  /** The entries of a sub-map; a missing sub-map has none. */
  function Entries(m: FieldMap): seq<Entry> {
    m.GetOr([])
  }

  /** The `properties` entries, reached through the blueprint's `schema` object. */
  function PropertyEntries(bp: Blueprint): seq<Entry> {
    if bp.schema.Some? then Entries(bp.schema.value.properties) else []
  }

  // ---------------------------------------------------------------------------
  // Type mapping
  // ---------------------------------------------------------------------------

  /** The column type of a `string` field with a format, by lower-cased format. */
  const FormatTypes: map<string, ColumnType> :=
    map["url" := STRING, "email" := STRING, "markdown" := STRING, "user" := STRING, "date-time" := TIMESTAMP]

  /** The column type of a field by lower-cased base type. */
  const BaseTypes: map<string, ColumnType> :=
    map["string" := STRING, "number" := FLOAT64, "boolean" := BOOL,
        "array" := STRING, "object" := STRING, "datetime" := TIMESTAMP]

  /** A lookup that falls back to STRING for keys the table does not list. */
  function TypeOr(table: map<string, ColumnType>, key: string): ColumnType {
    if key in table then table[key] else STRING
  }

  /** The field is a `string` (in any case) and carries a non-empty format. */
  predicate HasFormat(portType: string, format: Option<string>) {
    Lower(portType) == "string" && format.Some? && format.value != ""
  }

  /**
    The warehouse type of a blueprint field type. It never fails: anything
    unrecognised becomes STRING.
   */
  function MapType(portType: string, format: Option<string>): (r: ColumnType)
    ensures HasFormat(portType, format) ==> (r == TIMESTAMP <==> Lower(format.value) == "date-time")
    ensures HasFormat(portType, format) ==> (r == STRING <==> Lower(format.value) != "date-time")
    ensures !HasFormat(portType, format) ==> (r == FLOAT64 <==> Lower(portType) == "number")
    ensures !HasFormat(portType, format) ==> (r == BOOL <==> Lower(portType) == "boolean")
    ensures !HasFormat(portType, format) ==> (r == TIMESTAMP <==> Lower(portType) == "datetime")
    ensures !HasFormat(portType, format) ==>
              (r == STRING <==> Lower(portType) !in {"number", "boolean", "datetime"})
  {
    if HasFormat(portType, format) then TypeOr(FormatTypes, Lower(format.value))
    else TypeOr(BaseTypes, Lower(portType))
  }

  /** Lower-cases an optional string. */
  function LowerOpt(o: Option<string>): Option<string> {
    if o.Some? then Some(Lower(o.value)) else None
  }

  /** The type mapping does not depend on the letter case of the type or of the format. */
  lemma MapTypeIgnoresCase(portType: string, format: Option<string>)
    ensures MapType(portType, format) == MapType(Lower(portType), LowerOpt(format))
  {
    LowerIdempotent(portType);
    if format.Some? {
      LowerIdempotent(format.value);
    }
  }

  // ---------------------------------------------------------------------------
  // Field construction
  // ---------------------------------------------------------------------------

  /** The five blueprint sub-maps, in the order their columns appear. */
  datatype Section = Properties | Relations | Calculations | Aggregations | Mirrors

  /** The declared `type` of a field, `"string"` when absent. */
  function KindOf(d: Descriptor): string {
    d.kind.GetOr("string")
  }

  const CalculatedPrefix: string := "Calculated property: "
  const AggregationPrefix: string := "Aggregation property: "
  const MirrorPrefix: string := "Mirror property from path: "

  /** The description of a multi-valued relation column. */
  function ManyRelationNote(name: string): string {
    "JSON array of " + name + " identifiers"
  }

  /** The column derived from one entry of one section. */
  function FieldFor(section: Section, e: Entry): (c: Column)
    ensures c.name == e.name && c.mode == NULLABLE
    ensures section == Relations || section == Mirrors ==> c.columnType == STRING
    ensures section != Relations && section != Mirrors ==>
              c.columnType == MapType(KindOf(e.descriptor), e.descriptor.format)
    ensures section == Properties ==> c.description == None
    ensures section == Relations ==>
              c.description == (if e.descriptor.many then Some(ManyRelationNote(e.name)) else None)
    ensures section == Calculations ==>
              && c.description.Some? && CalculatedPrefix <= c.description.value
              && c.description.value[|CalculatedPrefix|..] == e.descriptor.description.GetOr("")
    ensures section == Aggregations ==>
              && c.description.Some? && AggregationPrefix <= c.description.value
              && c.description.value[|AggregationPrefix|..] == e.descriptor.description.GetOr("")
    ensures section == Mirrors ==>
              && c.description.Some? && MirrorPrefix <= c.description.value
              && c.description.value[|MirrorPrefix|..] == e.descriptor.path.GetOr("")
  {
    var d := e.descriptor;
    match section
    case Properties =>
      Column(e.name, MapType(KindOf(d), d.format), NULLABLE, None)
    case Relations =>
      if d.many then Column(e.name, STRING, NULLABLE, Some(ManyRelationNote(e.name)))
      else Column(e.name, STRING, NULLABLE, None)
    case Calculations =>
      Column(e.name, MapType(KindOf(d), d.format), NULLABLE, Some(CalculatedPrefix + d.description.GetOr("")))
    case Aggregations =>
      Column(e.name, MapType(KindOf(d), d.format), NULLABLE, Some(AggregationPrefix + d.description.GetOr("")))
    case Mirrors =>
      Column(e.name, STRING, NULLABLE, Some(MirrorPrefix + d.path.GetOr("")))
  }

  /** The columns of one section, one per entry, in entry order. */
  function SectionFields(section: Section, es: seq<Entry>): (r: seq<Column>)
    ensures |r| == |es|
    ensures forall i :: 0 <= i < |es| ==> r[i] == FieldFor(section, es[i])
  {
    if |es| == 0 then [] else [FieldFor(section, es[0])] + SectionFields(section, es[1..])
  }

  // ---------------------------------------------------------------------------
  // Column names
  // ---------------------------------------------------------------------------

  /** The set of column names of a column list. */
  function Names(cols: seq<Column>): set<string> {
    set c | c in cols :: c.name
  }

  /** The column names of a column list, in order. */
  function NameSeq(cols: seq<Column>): (r: seq<string>)
    ensures |r| == |cols|
  {
    if |cols| == 0 then [] else [cols[0].name] + NameSeq(cols[1..])
  }

  /** The keys of a sub-map, in order. */
  function EntryNames(es: seq<Entry>): seq<string> {
    Map((e: Entry) => e.name, es)
  }

  lemma Names_Append(a: seq<Column>, b: seq<Column>)
    ensures Names(a + b) == Names(a) + Names(b)
  {
    forall n | n in Names(a + b) ensures n in Names(a) + Names(b) {
      var c :| c in a + b && c.name == n;
    }
    forall n | n in Names(a) + Names(b) ensures n in Names(a + b) {
      if n in Names(a) {
        var c :| c in a && c.name == n;
        assert c in a + b;
      } else {
        var c :| c in b && c.name == n;
        assert c in a + b;
      }
    }
  }

  // ---------------------------------------------------------------------------
  // Whole schema
  // ---------------------------------------------------------------------------

  /** The four columns every mirrored table starts with; only `identifier` is REQUIRED. */
  const BaseColumns: seq<Column> := [
    Column("identifier", STRING, REQUIRED, None),
    Column("title", STRING, NULLABLE, None),
    Column("created_at", TIMESTAMP, NULLABLE, None),
    Column("updated_at", TIMESTAMP, NULLABLE, None)
  ]

  const BaseNames: seq<string> := ["identifier", "title", "created_at", "updated_at"]

  /** The number of columns the five sections contribute. */
  function SectionsSize(bp: Blueprint): nat {
    |PropertyEntries(bp)| + |Entries(bp.relations)| + |Entries(bp.calculationProperties)|
      + |Entries(bp.aggregationProperties)| + |Entries(bp.mirrorProperties)|
  }

  /**
    The table schema derived from a blueprint: the four base columns, then
    the properties, relations, calculation, aggregation and mirror columns.
   */
  function DeriveSchema(bp: Blueprint): (r: seq<Column>)
    ensures |r| == 4 + SectionsSize(bp)
    ensures r[..4] == BaseColumns
    ensures r[0].mode == REQUIRED
    ensures forall i :: 1 <= i < |r| ==> r[i].mode == NULLABLE
  {
    BaseColumns
      + SectionFields(Properties, PropertyEntries(bp))
      + SectionFields(Relations, Entries(bp.relations))
      + SectionFields(Calculations, Entries(bp.calculationProperties))
      + SectionFields(Aggregations, Entries(bp.aggregationProperties))
      + SectionFields(Mirrors, Entries(bp.mirrorProperties))
  }

  lemma {:induction false} NameSeq_Append(a: seq<Column>, b: seq<Column>)
    ensures NameSeq(a + b) == NameSeq(a) + NameSeq(b)
  {
    if |a| > 0 {
      assert (a + b)[1..] == a[1..] + b;
      NameSeq_Append(a[1..], b);
    } else {
      assert a + b == b;
    }
  }

  lemma {:induction false} NameSeq_SectionFields(section: Section, es: seq<Entry>)
    ensures NameSeq(SectionFields(section, es)) == EntryNames(es)
  {
    if |es| > 0 {
      NameSeq_SectionFields(section, es[1..]);
      assert SectionFields(section, es)[1..] == SectionFields(section, es[1..]);
      assert EntryNames(es) == [es[0].name] + EntryNames(es[1..]);
    }
  }

  lemma NameSeq_Six(x1: seq<Column>, x2: seq<Column>, x3: seq<Column>, x4: seq<Column>,
                    x5: seq<Column>, x6: seq<Column>)
    ensures NameSeq(x1 + x2 + x3 + x4 + x5 + x6)
            == NameSeq(x1) + NameSeq(x2) + NameSeq(x3) + NameSeq(x4) + NameSeq(x5) + NameSeq(x6)
  {
    NameSeq_Append(x1, x2);
    NameSeq_Append(x1 + x2, x3);
    NameSeq_Append(x1 + x2 + x3, x4);
    NameSeq_Append(x1 + x2 + x3 + x4, x5);
    NameSeq_Append(x1 + x2 + x3 + x4 + x5, x6);
  }

  /** The derived column names are the base names followed by every section key, in order. */
  lemma DeriveSchemaNames(bp: Blueprint)
    ensures NameSeq(DeriveSchema(bp))
            == BaseNames + EntryNames(PropertyEntries(bp)) + EntryNames(Entries(bp.relations))
               + EntryNames(Entries(bp.calculationProperties)) + EntryNames(Entries(bp.aggregationProperties))
               + EntryNames(Entries(bp.mirrorProperties))
  {
    var p := SectionFields(Properties, PropertyEntries(bp));
    var rl := SectionFields(Relations, Entries(bp.relations));
    var c := SectionFields(Calculations, Entries(bp.calculationProperties));
    var a := SectionFields(Aggregations, Entries(bp.aggregationProperties));
    var m := SectionFields(Mirrors, Entries(bp.mirrorProperties));
    assert DeriveSchema(bp) == BaseColumns + p + rl + c + a + m;
    NameSeq_Six(BaseColumns, p, rl, c, a, m);
    assert NameSeq(BaseColumns) == BaseNames by { BaseColumnNames(); }
    NameSeq_SectionFields(Properties, PropertyEntries(bp));
    NameSeq_SectionFields(Relations, Entries(bp.relations));
    NameSeq_SectionFields(Calculations, Entries(bp.calculationProperties));
    NameSeq_SectionFields(Aggregations, Entries(bp.aggregationProperties));
    NameSeq_SectionFields(Mirrors, Entries(bp.mirrorProperties));
  }

  lemma BaseColumnNames()
    ensures NameSeq(BaseColumns) == BaseNames
  {
  }

  /** Every entry of every section yields its column somewhere in the derived schema. */
  lemma DeriveSchemaCoversEntries(bp: Blueprint)
    ensures forall e :: e in PropertyEntries(bp) ==> FieldFor(Properties, e) in DeriveSchema(bp)
    ensures forall e :: e in Entries(bp.relations) ==> FieldFor(Relations, e) in DeriveSchema(bp)
    ensures forall e :: e in Entries(bp.calculationProperties) ==> FieldFor(Calculations, e) in DeriveSchema(bp)
    ensures forall e :: e in Entries(bp.aggregationProperties) ==> FieldFor(Aggregations, e) in DeriveSchema(bp)
    ensures forall e :: e in Entries(bp.mirrorProperties) ==> FieldFor(Mirrors, e) in DeriveSchema(bp)
  {
    forall section, es, e | e in es ensures FieldFor(section, e) in SectionFields(section, es) {
      var i :| 0 <= i < |es| && es[i] == e;
      assert SectionFields(section, es)[i] == FieldFor(section, e);
    }
  }

  /** The blueprint's `required` list has no influence on the derived schema. */
  lemma RequiredListIgnored(bp: Blueprint, required: seq<string>)
    requires bp.schema.Some?
    ensures DeriveSchema(bp.(schema := Some(bp.schema.value.(required := required)))) == DeriveSchema(bp)
  {
  }
}

=== FILE: update_grouping.dfy ===
/**
  The update half of row reconciliation (clients/bigquery.py,
  `_execute_bulk_update`): rows whose identifier already exists are grouped by
  the exact set of their non-identifier columns, and every row becomes one
  parameterised UPDATE of its own identifier. Statements are returned as data;
  executing them, concurrently and with failures swallowed per row, is left to
  the warehouse.
 */
module UpdateGrouping {
  import opened SchemaMapper
  import opened RowShaping

  // ---------------------------------------------------------------------------
  // Grouping
  // ---------------------------------------------------------------------------

  /** A row to update, split into its identifier and its other columns (`row.pop("identifier")`). */
  datatype UpdateItem = UpdateItem(identifier: Value, values: Row)

  function Split(row: Row): (it: UpdateItem)
    requires "identifier" in row
    ensures it.identifier == row["identifier"]
    ensures it.values.Keys == row.Keys - {"identifier"}
    ensures forall k :: k in it.values ==> it.values[k] == row[k]
  {
    UpdateItem(row["identifier"], row - {"identifier"})
  }

  /** The grouping key of an item: the names of its non-identifier columns. */
  function FieldSet(it: UpdateItem): set<string> {
    it.values.Keys
  }

  /** The items sharing one field set, in arrival order. */
  datatype Group = Group(fields: set<string>, items: seq<UpdateItem>)

  /** Every item of every group has the group's field set, and no two groups share one. */
  ghost predicate WellGrouped(gs: seq<Group>) {
    && (forall i :: 0 <= i < |gs| ==> |gs[i].items| > 0)
    && (forall i, it :: 0 <= i < |gs| && it in gs[i].items ==> FieldSet(it) == gs[i].fields)
    && (forall i, j :: 0 <= i < j < |gs| ==> gs[i].fields != gs[j].fields)
  }

  /** All items held by the groups. */
  function Members(gs: seq<Group>): multiset<UpdateItem> {
    if |gs| == 0 then multiset{} else multiset(gs[0].items) + Members(gs[1..])
  }

  /**
    One step of the grouping loop: the item joins the group of its field set,
    or opens a new group after the existing ones.
   */
  function AddToGroups(gs: seq<Group>, it: UpdateItem): (r: seq<Group>)
    // Existing groups keep their keys; one of them may gain the item at its end.
    ensures |gs| <= |r| <= |gs| + 1
    ensures forall j :: 0 <= j < |gs| ==> r[j].fields == gs[j].fields
    ensures forall j :: 0 <= j < |gs| ==>
              r[j].items == gs[j].items || (r[j].items == gs[j].items + [it] && gs[j].fields == FieldSet(it))
    // A new group is opened only for a field set no group has.
    ensures |r| == |gs| + 1 ==>
              r[|gs|] == Group(FieldSet(it), [it]) && forall j :: 0 <= j < |gs| ==> gs[j].fields != FieldSet(it)
  {
    if |gs| == 0 then [Group(FieldSet(it), [it])]
    else if gs[0].fields == FieldSet(it) then [Group(gs[0].fields, gs[0].items + [it])] + gs[1..]
    else [gs[0]] + AddToGroups(gs[1..], it)
  }

  lemma AddToGroupsWellGrouped(gs: seq<Group>, it: UpdateItem)
    requires WellGrouped(gs)
    ensures WellGrouped(AddToGroups(gs, it))
  {
    var r := AddToGroups(gs, it);
    forall i, x | 0 <= i < |r| && x in r[i].items ensures FieldSet(x) == r[i].fields {
      if i < |gs| && x !in gs[i].items {
        assert x == it;
      }
    }
    forall i, j | 0 <= i < j < |r| ensures r[i].fields != r[j].fields {
      if j == |gs| {
        assert gs[i].fields != FieldSet(it);
      } else {
        assert gs[i].fields != gs[j].fields;
      }
    }
  }

  lemma {:induction false} AddToGroupsMembers(gs: seq<Group>, it: UpdateItem)
    ensures Members(AddToGroups(gs, it)) == Members(gs) + multiset{it}
  {
    var r := AddToGroups(gs, it);
    if |gs| == 0 {
      assert r[1..] == [];
    } else if gs[0].fields == FieldSet(it) {
      assert r[1..] == gs[1..];
    } else {
      assert r[1..] == AddToGroups(gs[1..], it);
      AddToGroupsMembers(gs[1..], it);
    }
  }

  /** The grouping loop over the rows to update, in order. */
  function GroupItems(items: seq<UpdateItem>): (r: seq<Group>)
    ensures WellGrouped(r)
  {
    if |items| == 0 then []
    else
      var prior := GroupItems(items[..|items| - 1]);
      AddToGroupsWellGrouped(prior, items[|items| - 1]);
      AddToGroups(prior, items[|items| - 1])
  }

  /** Grouping neither drops nor duplicates an item. */
  lemma {:induction false} GroupItemsMembers(items: seq<UpdateItem>)
    ensures Members(GroupItems(items)) == multiset(items)
  {
    if |items| > 0 {
      var init := items[..|items| - 1];
      var last := items[|items| - 1];
      GroupItemsMembers(init);
      AddToGroupsMembers(GroupItems(init), last);
      assert items == init + [last];
    }
  }

  /**
    Two items of the grouped input share a group exactly when their field sets
    are equal.
   */
  lemma SameGroupIffSameFields(items: seq<UpdateItem>, i: nat, j: nat, x: UpdateItem, y: UpdateItem)
    requires var gs := GroupItems(items); i < |gs| && j < |gs| && x in gs[i].items && y in gs[j].items
    ensures i == j <==> FieldSet(x) == FieldSet(y)
  {
  }

  /** An item of the input sits in the group keyed by its own field set. */
  lemma ItemHasItsGroup(items: seq<UpdateItem>, x: UpdateItem)
    requires x in items
    ensures var gs := GroupItems(items);
            exists i :: 0 <= i < |gs| && x in gs[i].items && gs[i].fields == FieldSet(x)
  {
    var gs := GroupItems(items);
    GroupItemsMembers(items);
    assert x in Members(gs);
    MemberInSomeGroup(gs, x);
  }

  lemma {:induction false} MemberInSomeGroup(gs: seq<Group>, x: UpdateItem)
    requires x in Members(gs) && WellGrouped(gs)
    ensures exists i :: 0 <= i < |gs| && x in gs[i].items && gs[i].fields == FieldSet(x)
  {
    if x in gs[0].items {
      assert 0 < |gs|;
    } else {
      assert WellGrouped(gs[1..]);
      MemberInSomeGroup(gs[1..], x);
      var i :| 0 <= i < |gs[1..]| && x in gs[1..][i].items && gs[1..][i].fields == FieldSet(x);
      assert gs[i + 1] == gs[1..][i];
    }
  }

  // ---------------------------------------------------------------------------
  // Statements
  // ---------------------------------------------------------------------------

  /**
    A bound parameter value: passed through, a string parsed as a timestamp,
    or the JSON text of a value (a Python string too) handed to the same parser.
   */
  datatype ParamValue = Raw(v: Value) | ParsedTimestamp(iso: string) | ParsedJsonText(doc: Value)

  /** A named, typed query parameter. */
  datatype Param = Param(name: string, paramType: ColumnType, value: ParamValue)

  /**
    `UPDATE table SET f = @f, ... WHERE identifier = @identifier`: the assigned
    columns (in no particular order), one parameter per assigned column, and
    the identifier parameter.
   */
  datatype UpdateStatement = UpdateStatement(setFields: set<string>, params: map<string, Param>, key: Param)

  /** `s.replace("Z", "+00:00")`: every `Z` becomes an explicit UTC offset. */
  function ReplaceZ(s: string): (r: string)
    ensures 'Z' !in r
    ensures 'Z' !in s ==> r == s
    // A single character: `Z` becomes the offset, anything else stays.
    ensures |s| == 1 ==> r == if s[0] == 'Z' then "+00:00" else s
  {
    if |s| == 0 then ""
    else (if s[0] == 'Z' then "+00:00" else [s[0]]) + ReplaceZ(s[1..])
  }

  /**
    The replacement works character by character: replacing in a concatenation
    is the concatenation of the replacements. With the single-character case
    this fixes the result on every string.
   */
  lemma {:induction false} ReplaceZAppend(a: string, b: string)
    ensures ReplaceZ(a + b) == ReplaceZ(a) + ReplaceZ(b)
  {
    if |a| > 0 {
      assert (a + b)[1..] == a[1..] + b;
      ReplaceZAppend(a[1..], b);
    } else {
      assert a + b == b;
    }
  }

  /**
    The declared type of a column (`{f.name: f.field_type}` over the table's
    columns, so the last column of that name wins), STRING for unknown names.
   */
  function DeclaredType(cols: seq<Column>, name: string): (t: ColumnType)
    ensures name !in Names(cols) ==> t == STRING
    ensures name in Names(cols) ==> exists c :: c in cols && c.name == name && c.columnType == t
    ensures |cols| > 0 && cols[|cols| - 1].name == name ==> t == cols[|cols| - 1].columnType
  {
    if |cols| == 0 then STRING
    else
      var last := cols[|cols| - 1];
      assert cols == cols[..|cols| - 1] + [last];
      Names_Append(cols[..|cols| - 1], [last]);
      if last.name == name then last.columnType
      else DeclaredType(cols[..|cols| - 1], name)
  }

  /** Column `i` carries `name` and no later column does. */
  predicate LastOfName(cols: seq<Column>, name: string, i: int) {
    0 <= i < |cols| && cols[i].name == name && forall j :: i < j < |cols| ==> cols[j].name != name
  }

  /** A known name takes the type of its last column: no later column carries that name. */
  lemma DeclaredTypeLastWins(cols: seq<Column>, name: string)
    requires name in Names(cols)
    ensures exists i :: LastOfName(cols, name, i) && cols[i].columnType == DeclaredType(cols, name)
  {
    var c :| c in cols && c.name == name;
    var k :| 0 <= k < |cols| && cols[k] == c;
    LastWinsFrom(cols, name, k);
  }

  lemma {:induction false} LastWinsFrom(cols: seq<Column>, name: string, k: int)
    requires 0 <= k < |cols| && cols[k].name == name
    ensures exists i :: LastOfName(cols, name, i) && cols[i].columnType == DeclaredType(cols, name)
  {
    var n := |cols| - 1;
    if cols[n].name == name {
      assert LastOfName(cols, name, n);
    } else {
      var front := cols[..n];
      assert front[k] == cols[k];
      LastWinsFrom(front, name, k);
      var i :| LastOfName(front, name, i) && front[i].columnType == DeclaredType(front, name);
      DeclaredTypeFront(cols, name);
      LastOfNameExtend(front, cols[n], name, i);
      assert cols == front + [cols[n]];
    }
  }

  lemma DeclaredTypeFront(cols: seq<Column>, name: string)
    requires |cols| > 0 && cols[|cols| - 1].name != name
    ensures DeclaredType(cols, name) == DeclaredType(cols[..|cols| - 1], name)
  {
  }

  lemma LastOfNameExtend(front: seq<Column>, c: Column, name: string, i: int)
    requires LastOfName(front, name, i) && c.name != name
    ensures LastOfName(front + [c], name, i) && (front + [c])[i] == front[i]
  {
  }

  /**
    A value bound to a column of type `t`: any Python string bound to a
    TIMESTAMP column is parsed first. That includes the JSON text a list
    relation is stored as.
   */
  function Bind(t: ColumnType, v: Value): (p: ParamValue)
    ensures p.ParsedTimestamp? <==> t == TIMESTAMP && v.Str?
    ensures p.ParsedTimestamp? ==> p.iso == ReplaceZ(v.s)
    ensures p.ParsedJsonText? <==> t == TIMESTAMP && v.JsonText?
    ensures p.ParsedJsonText? ==> p.doc == v.doc
    ensures p.Raw? <==> !(t == TIMESTAMP && (v.Str? || v.JsonText?))
    ensures p.Raw? ==> p.v == v
  {
    if t == TIMESTAMP && v.Str? then ParsedTimestamp(ReplaceZ(v.s))
    else if t == TIMESTAMP && v.JsonText? then ParsedJsonText(v.doc)
    else Raw(v)
  }

  /**
    The statement of one item, given its group's field list. Within a group
    the field list is the item's own key set, so every field has a value.
   */
  function StatementFor(cols: seq<Column>, fields: set<string>, it: UpdateItem): (st: UpdateStatement) {
    UpdateStatement(
      fields,
      map f | f in fields && f in it.values :: Param(f, DeclaredType(cols, f), Bind(DeclaredType(cols, f), it.values[f])),
      Param("identifier", STRING, Raw(it.identifier)))
  }

  /** The statement of one row to update, independently of any grouping. */
  function RowStatement(cols: seq<Column>, row: Row): (st: UpdateStatement)
    requires "identifier" in row
    // Every non-identifier column is set exactly once, and nothing else is.
    ensures st.setFields == row.Keys - {"identifier"} && st.params.Keys == st.setFields
    // Each parameter is named after its column, typed by the table and bound from the row.
    ensures forall f :: f in st.params ==>
              && st.params[f].name == f
              && st.params[f].paramType == DeclaredType(cols, f)
              && st.params[f].value == Bind(DeclaredType(cols, f), row[f])
    // The statement filters on the row's own identifier, as a STRING.
    ensures st.key == Param("identifier", STRING, Raw(row["identifier"]))
  {
    var it := Split(row);
    StatementFor(cols, FieldSet(it), it)
  }

  /** The statements of a group: one per item, in item order. */
  function GroupStatements(cols: seq<Column>, g: Group): (r: seq<UpdateStatement>)
    ensures |r| == |g.items|
  {
    seq(|g.items|, i requires 0 <= i < |g.items| => StatementFor(cols, g.fields, g.items[i]))
  }

  /** The statements of all groups, group by group. */
  function StatementsOf(cols: seq<Column>, gs: seq<Group>): (r: seq<UpdateStatement>) {
    if |gs| == 0 then [] else GroupStatements(cols, gs[0]) + StatementsOf(cols, gs[1..])
  }

  /**
    One statement per grouped row, issued group by group: the first group's
    statements, in item order, come before all the others.
   */
  lemma {:induction false} StatementsOfGroups(cols: seq<Column>, gs: seq<Group>)
    ensures |StatementsOf(cols, gs)| == |Members(gs)|
    ensures |gs| > 0 ==> StatementsOf(cols, gs)[..|gs[0].items|] == GroupStatements(cols, gs[0])
  {
    if |gs| > 0 {
      StatementsOfGroups(cols, gs[1..]);
    }
  }

  /** The statement of an item keyed by its own field set. */
  function ItemStatement(cols: seq<Column>, it: UpdateItem): UpdateStatement {
    StatementFor(cols, FieldSet(it), it)
  }

  function ItemStatements(cols: seq<Column>, items: seq<UpdateItem>): (r: seq<UpdateStatement>)
    ensures |r| == |items|
    ensures forall i :: 0 <= i < |items| ==> r[i] == ItemStatement(cols, items[i])
  {
    if |items| == 0 then []
    else ItemStatements(cols, items[..|items| - 1]) + [ItemStatement(cols, items[|items| - 1])]
  }

  lemma {:induction false} StatementsOfAdd(cols: seq<Column>, gs: seq<Group>, it: UpdateItem)
    ensures multiset(StatementsOf(cols, AddToGroups(gs, it)))
            == multiset(StatementsOf(cols, gs)) + multiset{ItemStatement(cols, it)}
  {
    var r := AddToGroups(gs, it);
    if |gs| == 0 {
      assert r[1..] == [];
      assert StatementsOf(cols, r) == GroupStatements(cols, r[0]) + [];
      assert GroupStatements(cols, r[0]) == [ItemStatement(cols, it)];
    } else if gs[0].fields == FieldSet(it) {
      assert r[1..] == gs[1..];
      assert GroupStatements(cols, r[0]) == GroupStatements(cols, gs[0]) + [ItemStatement(cols, it)];
    } else {
      var rest := AddToGroups(gs[1..], it);
      assert r[1..] == rest;
      StatementsOfAdd(cols, gs[1..], it);
    }
  }

  lemma {:induction false} StatementsOfGroupItems(cols: seq<Column>, items: seq<UpdateItem>)
    ensures multiset(StatementsOf(cols, GroupItems(items))) == multiset(ItemStatements(cols, items))
  {
    if |items| > 0 {
      var init := items[..|items| - 1];
      var last := items[|items| - 1];
      assert GroupItems(items) == AddToGroups(GroupItems(init), last);
      StatementsOfGroupItems(cols, init);
      StatementsOfAdd(cols, GroupItems(init), last);
      assert ItemStatements(cols, items) == ItemStatements(cols, init) + [ItemStatement(cols, last)];
    }
  }

  /** Every row must carry its identifier, as `row.pop("identifier")` demands. */
  predicate HasIdentifiers(rows: seq<Row>) {
    forall i :: 0 <= i < |rows| ==> "identifier" in rows[i]
  }

  function SplitAll(rows: seq<Row>): (r: seq<UpdateItem>)
    requires HasIdentifiers(rows)
    ensures |r| == |rows|
    ensures forall i :: 0 <= i < |rows| ==> r[i] == Split(rows[i])
  {
    seq(|rows|, i requires 0 <= i < |rows| && HasIdentifiers(rows) => Split(rows[i]))
  }

  /** The per-row statements, one per row in row order, without any grouping. */
  function RowStatements(cols: seq<Column>, rows: seq<Row>): (r: seq<UpdateStatement>)
    requires HasIdentifiers(rows)
    ensures |r| == |rows|
    ensures forall i :: 0 <= i < |rows| ==> r[i] == RowStatement(cols, rows[i])
  {
    seq(|rows|, i requires 0 <= i < |rows| && HasIdentifiers(rows) => RowStatement(cols, rows[i]))
  }

  /**
    `_execute_bulk_update`: nothing for no rows; otherwise the statements of
    the grouped rows. Grouping neither drops nor duplicates a row: the result
    is, as a multiset, exactly one statement per row.
   */
  function BulkUpdate(cols: seq<Column>, rows: seq<Row>): (r: seq<UpdateStatement>)
    requires HasIdentifiers(rows)
    ensures |rows| == 0 ==> r == []
    ensures multiset(r) == multiset(RowStatements(cols, rows))
  {
    if |rows| == 0 then []
    else
      var items := SplitAll(rows);
      StatementsOfGroupItems(cols, items);
      assert ItemStatements(cols, items) == RowStatements(cols, rows);
      StatementsOf(cols, GroupItems(items))
  }
}
